=== FILE: README.md ===
# QR scanner widget: a Dafny model of its scan-and-feedback state machine

The QR scanner app is a React widget. It turns on the device camera, lets a
third-party decoder read QR codes from the video, keeps every distinct code once
in a list (newest first) persisted in browser storage, plays an "accepted" or
"denied" cue, and shows a status line with a "Tentar permissões" (retry
permissions) button when the status looks like a failure. The logic sits in
`src/App.tsx`, again in the older `src/App.jsx`, and in the classifier of
`src/components/StatusDisplay.tsx`.

This project models that logic as pure functions over an immutable state:

- `Ledger` — the stored value (`Absent | EmptyText | Malformed | List`), loading
  with its empty fallback, the persist effect, the check-and-insert of a decoded
  code (`Record`), and runs of decoded codes (`DecodeAll`): no duplicates, exact
  contents, the old ledger kept as the tail, new codes newest first.
- `Camera` — page location and the secure-context test, granted streams with
  their torch capability, the decoder handle, and the two-step camera request
  (rear camera, then once any camera).
- `Torch` — `tryEnableTorch`: the decoder's `setFlash` when offered, otherwise
  the stream / video track / torch capability checks, which differ between the
  two versions.
- `Text` and `Status` — `toLowerCase`, `includes` (proved equal to "occurs at
  some index"), every status message, and `ShowsRetry`, the `isError` test.
- `Widget` — the component state (ledger, stored value, `running`, `flashOn`,
  `status`, scanner and stream references, pending timers, version flag), one
  transition per event (toggle camera, decoded code, resume timer, auto-torch
  timer, toggle flash, reset, retry permissions), runs of events, and the
  invariant every run keeps.

Browser calls are inputs, not code: each camera request's answer, whether the
decoder offers `setFlash` and whether its `start()` succeeds, whether `setFlash`
or `applyConstraints` succeeds, the answer to `confirm`, and the page location
all arrive inside events. Timers are events of their own (`ResumeTimer` for the
700 ms pause, `TorchTimer` for the 400 ms auto-torch); a pending-timer counter
records what has been scheduled. Cues and alerts are emitted tags in `Feedback`.
`Variants.Variant` (`Tsx` / `Jsx`) selects between the two versions. They differ
in three modelled ways: whether stop clears the flash flag, the torch capability test, and
what a resume timer does after stop. They also format a non-`Error` rejection
reason differently, which the model does not distinguish (see "## Left out").

Some behaviour of the code that a reader might not expect, modelled as written:
- a confirmed reset writes `[]` under the storage key (`qrScannedCodes_v2`) and
  does not remove the key;
- `App.jsx` keeps the flash flag when the camera stops;
- in `App.tsx` a resume timer that fires after stop still sets "Escaneando..."
  (shown by `Widget.LateTimersAfterStop`);
- codes are prepended, so the newest code comes first;
- no timer reverts "Código repetido" or an error status: the only status a timer
  writes is the resume timer's "Escaneando..."; cues are not debounced, and the
  audio elements are not unlocked beforehand.

## Model

| member | source | states |
|---|---|---|
| Ledger.LoadFallsBackToEmpty | src/App.tsx:37-44 | an absent, empty or unparsable stored value loads as the empty ledger; a parsed list loads as itself |
| Ledger.Persist | src/App.tsx:47-50 | the persist effect writes the whole ledger, and loading that value gives back exactly the ledger |
| Ledger.StartupRewrite | src/App.tsx:37-50 | the write-back on first render keeps the stored value exactly when it already was a list; otherwise it replaces it with the loaded list |
| Ledger.Record | src/App.tsx:147-154 | a code is accepted exactly when it is not in the ledger; rejected leaves the ledger unchanged, accepted prepends it (length + 1); contents are old codes plus the code; no duplicates are kept |
| Ledger.SameCodeTwice | src/App.tsx:147-154 | the same code decoded twice in a row is rejected the second time with the ledger unchanged, and accepted the first time unless already present |
| Ledger.DecodeAllKeepsNoDup | src/App.jsx:93-100 | any run of decoded codes keeps a duplicate-free ledger duplicate-free |
| Ledger.DecodeAllContents | src/App.jsx:93-100 | after a run the ledger holds exactly the old codes and the decoded ones; the old ledger is its tail and every code in front of it is new |
| Ledger.DecodeAllNewestFirst | src/App.jsx:100 | among the codes a run added, one nearer the front was first decoded later than one further back |
| Camera.Acquire | src/App.jsx:62-83 | the rear camera is requested first and any camera exactly once more only if that was refused; a granted rear camera is used, otherwise the second answer is the result, so the start fails only if both are refused, reporting the second refusal |
| Camera.AcquireStopsAtFirstGrant | src/App.jsx:62-83 | against the answers listed in request order: every request before the last was refused, the result is the last answer, and it is a grant exactly when some answer was |
| Torch.TryEnableTorch | src/App.tsx:77-95 | with `setFlash` the result is its outcome; otherwise no stream, no video track and an unadvertised torch each fail with their own error, and with an advertised torch the request succeeds exactly when the constraint call does |
| Torch.JsxTorchImpliesTsx | src/App.jsx:149-166 | every torch request the older version lets through, the newer one does too; they differ only on a video track that advertises `torch: false` |
| Torch.FalseTorchSplitsVariants | src/App.jsx:160 | a track with `torch: false` is used by the newer version's key-presence test and refused by the older version's truthiness test |
| Widget.InitSatisfiesInv | src/App.tsx:37-55 | the first render from a duplicate-free stored list satisfies the invariant; its ledger is empty exactly when nothing usable or an empty list was stored |
| Widget.Start | src/App.tsx:111-182 | running: nothing changes; insecure page: only the secure-context status, no camera request; both requests refused: only the camera-error status; the camera runs exactly when the page is secure, a request is granted and the decoder starts; a granted start holds the new stream and a fresh scanner, and sets "Escaneando..." and schedules the auto-torch when the decoder starts, or the scanner-failure status when it does not |
| Widget.Stop | src/App.tsx:100-109 | scanner and stream released, camera off, status "Pronto"; the flash flag goes off in the newer version and is kept in the older one; ledger, storage and timers untouched |
| Widget.StopIdempotent | src/App.jsx:123-131 | stopping a stopped widget changes nothing more |
| Widget.Toggle | src/App.tsx:184-186 | a running camera goes through exactly `Stop` (released, "Pronto", no camera request, ledger untouched); a stopped one goes through exactly `Start` |
| Widget.Decode | src/App.tsx:145-163 | the accepted cue plays exactly for a code not in the ledger and the denied cue exactly for one in it; a repeat changes only the status ("Código repetido"); a new code is prepended and stored, sets "QR lido", pauses the scanner and schedules one resume |
| Widget.Resume | src/App.jsx:105 | a pending resume restarts the held scanner and sets "Escaneando..."; with no scanner the newer version sets that status and changes nothing else, and the older one changes nothing but the timer count; ledger, storage, stream and flags are untouched |
| Widget.AutoTorch | src/App.tsx:176-178 | a pending auto-torch turns the flash flag on exactly when the torch call succeeds and never turns it off; without scanner and stream the flag is unchanged; nothing else but the timer count changes |
| Widget.FlipFlash | src/App.tsx:188-201 | without a scanner only the "Scanner não iniciado" alert; otherwise the flag flips exactly when the torch call succeeds, and when it fails the flag stays and the "Flash não suportado neste dispositivo" alert is raised; nothing else changes |
| Widget.Reset | src/App.tsx:214-218 | declined: nothing changes; confirmed: empty ledger, the empty list stored under the key (not the key removed), status "Lista limpa", nothing else changes |
| Widget.Retry | src/App.tsx:203-212 | one unconstrained camera request; the status reports the permission as granted or refused with the reason |
| Widget.StepKeepsInv | src/App.tsx:100-218 | every event keeps the invariant (no duplicates, storage mirrors the ledger, scanner and stream together, running implies a scanner, newer version's flash flag only with a scanner) and the version |
| Widget.RunKeepsInv | src/App.jsx:51-188 | any run of events keeps the invariant |
| Widget.NoDuplicatesEver | src/App.tsx:145-154 | from a first render, whatever events follow, the ledger has no duplicate and what is stored equals it |
| Widget.RunCodesComeFromDecodes | src/App.tsx:145-218 | every code in the ledger after a run was there before or was decoded during the run |
| Widget.DecodeRunMatchesLedger | src/App.jsx:91-106 | a run of decode events leaves exactly the ledger the check-and-insert of its codes in order would |
| Widget.SameCodeTwiceInState | src/App.jsx:93-101 | decoding the same code twice in a row plays accepted (if new) then denied, never accepted twice, and the second decode leaves the ledger alone |
| Widget.StartFailuresAndRetry | src/App.jsx:51-121 | an insecure page makes no camera request, sets the secure-context status and offers no retry; any other start that leaves the camera off sets a status offering the retry button |
| Widget.LateTimersAfterStop | src/App.jsx:103-131 | after stop a late auto-torch cannot change the flash flag and no timer touches the ledger; a late resume sets "Escaneando..." with the camera off in the newer version and keeps "Pronto" in the older one |
| Widget.ResetThenReload | src/App.jsx:184-188 | after a confirmed reset the next first render loads an empty ledger; a declined reset changes nothing |
| Status.ShowsRetry | src/components/StatusDisplay.tsx:13-17 | the retry button is shown exactly for a non-empty status whose lower-cased text has "erro", "falha" or "permiss" at some index |
| Status.EmptyStatusOffersNoRetry | src/components/StatusDisplay.tsx:13 | the empty status never shows the button |
| Status.RetryIgnoresCase | src/components/StatusDisplay.tsx:14-16 | a status and its lower-cased form are classified alike |
| Status.CapitalisationDoesNotMatter | src/App.jsx:226 | two statuses with the same lower-cased text, such as "ERRO" and "Erro", are classified alike |
| Status.NeutralMessagesOfferNoRetry | src/App.tsx:108-174 | "Pronto", "Solicitando câmera...", "Escaneando...", "QR lido", "Código repetido" and "Lista limpa" never show the button |
| Status.InsecureContextOffersNoRetry | src/App.tsx:115 | the secure-context message contains no trigger word, so it offers no retry |
| Status.CameraErrorOffersRetry | src/App.tsx:135 | the camera-error message shows the button whatever the reason text |
| Status.ScannerFailureOffersRetry | src/App.tsx:180 | the scanner-failure message shows the button whatever the reason text |
| Status.PermissionDeniedOffersRetry | src/App.tsx:210 | the permission-denied message shows the button whatever the reason text |
| Status.RetryingPermissionsOffersRetry | src/App.tsx:204 | "Tentando permissões..." shows the button, because it contains "permiss" |
| Status.PermissionGrantedOffersRetry | src/App.tsx:208 | "Permissão concedida. Clique em Ligar câmera." still shows the button, because "permiss" is a plain substring test |
| Text.Lower | src/components/StatusDisplay.tsx:14 | lower-casing keeps the length and lower-cases each character in place |
| Text.ContainsIff | src/components/StatusDisplay.tsx:14-16 | the left-to-right `includes` search succeeds exactly when the word occurs at some index |

## Left out

- Rendering: the JSX markup of both App files, `QrScannerView`, `ScannedCodeList` and the expand/collapse toggle only display state and wire buttons.
- Audio playback is an emitted cue tag; `alert` is an emitted alert tag; console logging is dropped.
- The QR decoding algorithm, `getUserMedia`, `video.play`, `setFlash` and `applyConstraints` are inputs carrying success or failure; a failing `video.play` is ignored by the code and not modelled.
- The unmount cleanup (`src/App.tsx:222-228`) belongs to the component's teardown, after which no event arrives.
- Asynchrony: each handler is one atomic transition, so only its final status is modelled. The intermediate "Solicitando câmera..." (no button, `Status.NeutralMessagesOfferNoRetry`) and "Tentando permissões..." (button, `Status.RetryingPermissionsOffersRetry`) are classified but never a resting state. Events arriving while a handler awaits are not interleaved.
- React's state lag (`codesRef` is updated after render, `running` and `flashOn` are read from the render's closure) is not modelled; each transition reads the current state.
- Widget.Decode: the decode callback has no guard of its own and is modelled that way; that the decoder emits only while it scans is left to the environment.
- Widget.Resume: a rejection of the decoder's `start()` promise inside the resume timer is unhandled in the code and is not modelled; the resumed scanner is taken to be scanning.
- Widget.Start: a second start after a failed decoder start replaces the stream reference without stopping the old tracks; the model records the replacement, not the track release. The video element is taken to be mounted, as it always is in the rendered markup.
- Torch.TryEnableTorch: the requested torch value (`on`) and the hardware torch state are not modelled; only success or failure of the call is.
- Ledger.LoadFallsBackToEmpty: a stored JSON value that parses but is not an array of strings is not representable; the code does not check the parsed value.
- The timer durations (700 ms pause, 400 ms auto-torch) are not modelled; only the order in which timers fire matters.
- Storage write failures are not modelled; the stored value always follows the persist effect.
- Text.Lower: only ASCII and Latin-1 capitals are lower-cased; other Unicode case mappings are not modelled. No other character lower-cases to a letter of the three trigger words, apart from dotted capital I, which lower-cases to two characters and cannot complete "permiss".
- Error messages: a camera or decoder failure's text is an opaque reason string; how the two versions format a non-`Error` rejection is not modelled.

=== FILE: camera.dfy ===
/** The browser collaborators of a camera session, reduced to what the App
    observes of them: the page location, the media stream a camera request
    grants, and the decoder handle built on the video element. */
module Camera {

  /** `location.protocol` and `location.hostname`. */
  datatype Location = Location(protocol: string, hostname: string)

  /** The secure-context test of `start`: https, or a page served from
      localhost or 127.0.0.1. */
  predicate IsSecure(loc: Location)
  {
    loc.protocol == "https:" || loc.hostname == "localhost" || loc.hostname == "127.0.0.1"
  }

  /** The two camera requests: the rear camera first, any camera as the fallback. */
  datatype Constraint = EnvironmentFacing | AnyVideo

  /** What the first video track's `getCapabilities()` says about the torch: no
      `torch` key (also when the track has no `getCapabilities`), or a key whose
      value is truthy or not. */
  datatype TorchCapability = NoTorchKey | TorchKey(truthy: bool)

  /** A granted media stream: whether it has a video track, and that track's
      torch capability. */
  datatype Stream = Stream(hasVideoTrack: bool, torch: TorchCapability)

  /** The answer to one `getUserMedia` request. */
  datatype Grant = Granted(stream: Stream) | Refused(reason: string)

  /** The stream (or final refusal) a start obtains, and the requests it made. */
  datatype Acquisition = Acquisition(result: Grant, requests: seq<Constraint>)

  /** The decoder handle: whether it offers `setFlash`, and whether it is
      currently scanning. */
  datatype Scanner = Scanner(hasSetFlash: bool, scanning: bool)

  /** Camera acquisition: ask for the rear camera, and only if that is refused
      ask once more for any camera. The start fails only when both are refused,
      and then with the second refusal. */
  function Acquire(environment: Grant, fallback: Grant): (a: Acquisition)
    ensures 1 <= |a.requests| <= 2 && a.requests[0] == EnvironmentFacing
    ensures |a.requests| == 2 <==> environment.Refused?
    ensures |a.requests| == 2 ==> a.requests[1] == AnyVideo
    ensures a.result.Granted? <==> environment.Granted? || fallback.Granted?
    ensures environment.Granted? ==> a.result == environment
    ensures environment.Refused? ==> a.result == fallback
  {
    if environment.Granted? then Acquisition(environment, [EnvironmentFacing])
    else Acquisition(fallback, [EnvironmentFacing, AnyVideo])
  }

  /** The answers to the requests a start made, in request order. */
  function Answers(environment: Grant, fallback: Grant, asked: nat): (answers: seq<Grant>)
    requires 1 <= asked <= 2
    ensures |answers| == asked && answers[0] == environment
    ensures asked == 2 ==> answers[1] == fallback
  {
    [environment, fallback][..asked]
  }

  /** Acquisition stops at the first grant: every request but the last was
      refused, the result is the last answer, and it is a grant exactly when some
      answer was. */
  lemma {:induction false} AcquireStopsAtFirstGrant(environment: Grant, fallback: Grant)
    ensures var a := Acquire(environment, fallback);
      var answers := Answers(environment, fallback, |a.requests|);
      && a.result == answers[|answers| - 1]
      && (forall k | 0 <= k < |answers| - 1 :: answers[k].Refused?)
      && (a.result.Granted? <==> exists k | 0 <= k < |answers| :: answers[k].Granted?)
  {
    var a := Acquire(environment, fallback);
    var answers := Answers(environment, fallback, |a.requests|);
    if a.result.Granted? {
      assert answers[|answers| - 1].Granted?;
    }
  }
}

=== FILE: ledger.dfy ===
/** The deduplicating code ledger: the list of scanned codes, newest first, as it
    is loaded from and written back to browser storage, and the check-and-insert
    that every decoded code goes through. */
module Ledger {

  /** What reading the ledger's storage key and parsing it can give: nothing
      stored, an empty string, text that does not parse, or a parsed list of
      codes. */
  datatype Stored = Absent | EmptyText | Malformed | List(codes: seq<string>)

  /** No code appears twice. */
  predicate NoDup(codes: seq<string>)
  {
    forall i, j | 0 <= i < j < |codes| :: codes[i] != codes[j]
  }

  /** The initial ledger: the stored list when one parses, otherwise empty. */
  function Load(v: Stored): seq<string>
  {
    match v
    case List(codes) => codes
    case _ => []
  }

  /** The persist effect: the whole ledger is written back under the key, and
      loading it again gives that very ledger. */
  function Persist(codes: seq<string>): (v: Stored)
    ensures Load(v) == codes
    ensures v != Absent && v != Malformed
  {
    List(codes)
  }

  /** An absent, empty or unparsable stored value loads as the empty ledger, and a
      parsed list loads as itself. */
  lemma LoadFallsBackToEmpty(v: Stored)
    ensures !v.List? ==> Load(v) == []
    ensures v.List? ==> Load(v) == v.codes
    ensures Load(v) == [] <==> !v.List? || v.codes == []
  {
  }

  /** Writing back what was loaded (the persist effect runs once on start-up)
      leaves the stored value as it was exactly when it was already a list;
      anything else is replaced by the list that was loaded. */
  lemma StartupRewrite(v: Stored)
    ensures Persist(Load(v)) == v <==> v.List?
    ensures Load(Persist(Load(v))) == Load(v)
  {
  }

  /** The outcome of one decoded code. */
  datatype Verdict = Accepted | Rejected

  datatype Recorded = Recorded(verdict: Verdict, codes: seq<string>)

  /** Check-and-insert: a code already in the ledger is rejected and the ledger is
      left alone; a new code is accepted and put in front. */
  function Record(codes: seq<string>, code: string): (r: Recorded)
    ensures r.verdict == Accepted <==> code !in codes
    ensures r.verdict == Rejected ==> r.codes == codes
    ensures r.verdict == Accepted ==> r.codes == [code] + codes && |r.codes| == |codes| + 1
    ensures forall c :: c in r.codes <==> c == code || c in codes
    ensures NoDup(codes) ==> NoDup(r.codes)
  {
    if code in codes then Recorded(Rejected, codes) else Recorded(Accepted, [code] + codes)
  }

  /** The same code twice in a row: the second time it is always rejected, and
      the first time it is accepted unless it was already there. */
  lemma {:induction false} SameCodeTwice(codes: seq<string>, code: string)
    ensures Record(Record(codes, code).codes, code).verdict == Rejected
    ensures Record(Record(codes, code).codes, code).codes == Record(codes, code).codes
    ensures code !in codes ==> Record(codes, code).verdict == Accepted
  {
  }

  /** The ledger after a run of decoded codes, the last one decoded last. */
  function DecodeAll(codes: seq<string>, decoded: seq<string>): seq<string>
    decreases |decoded|
  {
    if decoded == [] then codes
    else Record(DecodeAll(codes, decoded[..|decoded| - 1]), decoded[|decoded| - 1]).codes
  }

  /** Where `code` first appears in `decoded`. */
  function FirstIndex(decoded: seq<string>, code: string): (k: nat)
    requires code in decoded
    ensures k < |decoded| && decoded[k] == code && code !in decoded[..k]
  {
    if decoded[0] == code then 0
    else
      assert code in decoded[1..];
      var k := 1 + FirstIndex(decoded[1..], code);
      assert decoded[..k] == [decoded[0]] + decoded[1..][..k - 1];
      k
  }

  /** A first appearance is unique: any index holding `code` with no earlier
      `code` is the first index. */
  lemma FirstIndexUnique(decoded: seq<string>, code: string, k: nat)
    requires k < |decoded| && decoded[k] == code && code !in decoded[..k]
    ensures FirstIndex(decoded, code) == k
  {
  }

  /** A code already in a prefix of the run keeps its first index when the run
      grows. */
  lemma FirstIndexInPrefix(decoded: seq<string>, n: nat, code: string)
    requires n <= |decoded| && code in decoded[..n]
    ensures code in decoded && FirstIndex(decoded, code) == FirstIndex(decoded[..n], code) < n
  {
    var k := FirstIndex(decoded[..n], code);
    assert decoded[..k] == decoded[..n][..k];
    FirstIndexUnique(decoded, code, k);
  }

  /** Any number of decoded codes keeps a duplicate-free ledger duplicate-free. */
  lemma {:induction false} DecodeAllKeepsNoDup(codes: seq<string>, decoded: seq<string>)
    requires NoDup(codes)
    ensures NoDup(DecodeAll(codes, decoded))
    decreases |decoded|
  {
    if decoded != [] {
      DecodeAllKeepsNoDup(codes, decoded[..|decoded| - 1]);
    }
  }

  /** After a run of decoded codes the ledger holds exactly the codes it held
      before and the codes decoded; the old ledger is still its tail, below the
      new codes, none of which it held before. */
  lemma {:induction false} DecodeAllContents(codes: seq<string>, decoded: seq<string>)
    ensures forall c :: c in DecodeAll(codes, decoded) <==> c in codes || c in decoded
    ensures |DecodeAll(codes, decoded)| >= |codes|
    ensures DecodeAll(codes, decoded)[|DecodeAll(codes, decoded)| - |codes|..] == codes
    ensures var r := DecodeAll(codes, decoded);
      forall i | 0 <= i < |r| - |codes| :: r[i] !in codes && r[i] in decoded
    decreases |decoded|
  {
    if decoded != [] {
      var prefix := decoded[..|decoded| - 1];
      var last := decoded[|decoded| - 1];
      DecodeAllContents(codes, prefix);
      assert decoded == prefix + [last];
      var before := DecodeAll(codes, prefix);
      if last !in before {
        var r := [last] + before;
        assert r[|r| - |codes|..] == before[|before| - |codes|..];
      }
    }
  }

  /** The first `m` codes of `ledger` all come from `decoded` and are ordered by
      decreasing first index there. */
  ghost predicate NewestFirst(ledger: seq<string>, m: nat, decoded: seq<string>)
    requires m <= |ledger|
  {
    forall i, j | 0 <= i < j < m ::
      ledger[i] in decoded && ledger[j] in decoded
      && FirstIndex(decoded, ledger[i]) > FirstIndex(decoded, ledger[j])
  }

  /** Newest first: among the codes a run added, one nearer the front was first
      decoded later than one further back. */
  lemma {:induction false} DecodeAllNewestFirst(codes: seq<string>, decoded: seq<string>)
    ensures |DecodeAll(codes, decoded)| >= |codes|
    ensures NewestFirst(DecodeAll(codes, decoded), |DecodeAll(codes, decoded)| - |codes|, decoded)
    decreases |decoded|
  {
    if decoded != [] {
      var n := |decoded|;
      var prefix := decoded[..n - 1];
      var last := decoded[n - 1];
      DecodeAllNewestFirst(codes, prefix);
      DecodeAllContents(codes, prefix);
      var before := DecodeAll(codes, prefix);
      var m := |before| - |codes|;
      assert forall i | 0 <= i < m :: before[i] in prefix;
      if last in before {
        assert DecodeAll(codes, decoded) == before;
        RejectedKeepsOrder(decoded, before, m);
      } else {
        assert DecodeAll(codes, decoded) == [last] + before;
        assert last !in prefix;
        AcceptedKeepsOrder(decoded, before, m);
      }
    }
  }

  /** The first index of a code of the run's prefix does not move when the run
      grows, so the order of the ledger's new codes carries over. */
  lemma RejectedKeepsOrder(decoded: seq<string>, before: seq<string>, m: nat)
    requires decoded != [] && m <= |before|
    requires forall i | 0 <= i < m :: before[i] in decoded[..|decoded| - 1]
    requires NewestFirst(before, m, decoded[..|decoded| - 1])
    ensures NewestFirst(before, m, decoded)
  {
    var n := |decoded|;
    forall i, j | 0 <= i < j < m
      ensures before[i] in decoded && before[j] in decoded
      ensures FirstIndex(decoded, before[i]) > FirstIndex(decoded, before[j])
    {
      FirstIndexInPrefix(decoded, n - 1, before[i]);
      FirstIndexInPrefix(decoded, n - 1, before[j]);
    }
  }

  /** A newly accepted code is decoded last and first seen there, so it goes in
      front of every other new code. */
  lemma AcceptedKeepsOrder(decoded: seq<string>, before: seq<string>, m: nat)
    requires decoded != [] && m <= |before|
    requires decoded[|decoded| - 1] !in decoded[..|decoded| - 1]
    requires forall i | 0 <= i < m :: before[i] in decoded[..|decoded| - 1]
    requires NewestFirst(before, m, decoded[..|decoded| - 1])
    ensures NewestFirst([decoded[|decoded| - 1]] + before, m + 1, decoded)
  {
    var n := |decoded|;
    var r := [decoded[n - 1]] + before;
    RejectedKeepsOrder(decoded, before, m);
    FirstIndexUnique(decoded, decoded[n - 1], n - 1);
    forall i, j | 0 <= i < j < m + 1
      ensures r[i] in decoded && r[j] in decoded
      ensures FirstIndex(decoded, r[i]) > FirstIndex(decoded, r[j])
    {
      assert r[j] == before[j - 1];
      FirstIndexInPrefix(decoded, n - 1, r[j]);
      if i > 0 {
        assert r[i] == before[i - 1];
      }
    }
  }
}

=== FILE: options.dfy ===
/** The optional value used for the references the widget keeps (scanner, stream)
    and for the alert an event may raise. */
module Options {

  datatype Option<+T> = None | Some(value: T)
}

=== FILE: status.dfy ===
/** The status line of the widget: every message the App handlers set, and the
    classifier that decides whether the "Tentar permissões" (retry permissions)
    button is shown under it. */
module Status {
  import opened Text

  const Ready: string := "Pronto"
  const Requesting: string := "Solicitando câmera..."
  const Scanning: string := "Escaneando..."
  const CodeRead: string := "QR lido"
  const Repeated: string := "Código repetido"
  const ListCleared: string := "Lista limpa"
  const RetryingPermissions: string := "Tentando permissões..."
  const PermissionGranted: string := "Permissão concedida. " + "Clique em Ligar câmera."

  /** The secure-context refusal, written as short pieces that each end in a
      space or close the message. */
  const InsecureContext: string :=
    "A câmera "
    + "só funciona em "
    + "contexto seguro "
    + "(https) ou "
    + "em localhost. "
    + "Abra o app "
    + "em https ou em "
    + "http://localhost."

  const CameraErrorPrefix: string := "Erro ao acessar câmera: "
  const ScannerFailurePrefix: string := "Falha ao iniciar scanner: "
  const PermissionDeniedPrefix: string := "Permissão não concedida: "

  /** Both camera requests failed; `reason` is the second failure's message. */
  function CameraError(reason: string): string
  {
    CameraErrorPrefix + reason
  }

  /** The decoder's `start()` rejected. */
  function ScannerFailure(reason: string): string
  {
    ScannerFailurePrefix + reason
  }

  /** The permission probe of "retry permissions" failed. */
  function PermissionDenied(reason: string): string
  {
    PermissionDeniedPrefix + reason
  }

  /** The lower-cased text has one of the three trouble words in it. */
  ghost predicate MentionsTrouble(lowered: string)
  {
    exists i ::
      OccursAt(lowered, "erro", i) || OccursAt(lowered, "falha", i) || OccursAt(lowered, "permiss", i)
  }

  /** `isError`: the retry button is shown for a non-empty status whose
      lower-cased text includes "erro", "falha" or "permiss". */
  function ShowsRetry(status: string): (shown: bool)
    ensures shown <==> status != "" && MentionsTrouble(Lower(status))
  {
    var lowered := Lower(status);
    ContainsIff(lowered, "erro");
    ContainsIff(lowered, "falha");
    ContainsIff(lowered, "permiss");
    status != ""
    && (Contains(lowered, "erro") || Contains(lowered, "falha") || Contains(lowered, "permiss"))
  }

  /** The empty status never shows the button. */
  lemma EmptyStatusOffersNoRetry()
    ensures !ShowsRetry("")
  {
  }

  /** The classification ignores case: a status and its lower-cased form are
      classified alike. */
  lemma RetryIgnoresCase(status: string)
    ensures ShowsRetry(status) == ShowsRetry(Lower(status))
  {
    LowerIdempotent(status);
    CapitalisationDoesNotMatter(status, Lower(status));
  }

  /** A message in which none of the pairs "rr", "fa", "ss" occurs (in any case)
      contains none of the trouble words. */
  lemma {:induction false} NoTroublePairs(m: string)
    requires NoPair(m, 'r', 'r') && NoPair(m, 'f', 'a') && NoPair(m, 's', 's')
    ensures !ShowsRetry(m)
  {
    assert "erro"[1] == 'r' && "erro"[2] == 'r';
    NoPairNotContained(m, "erro", 1);
    assert "falha"[0] == 'f' && "falha"[1] == 'a';
    NoPairNotContained(m, "falha", 0);
    assert "permiss"[5] == 's' && "permiss"[6] == 's';
    NoPairNotContained(m, "permiss", 5);
  }

  /** The progress and outcome messages of the App. */
  predicate IsNeutralMessage(m: string)
  {
    m == Ready || m == Requesting || m == Scanning
    || m == CodeRead || m == Repeated || m == ListCleared
  }

  /** The pair conditions of `NoTroublePairs`, one literal message (or one piece
      of a long message) at a time. The verifier unfolds a string literal only a
      few characters deep per proof, so each literal gets a lemma of its own and
      long messages are split into short pieces joined by `NoPairJoin`. */
  lemma ReadyHasNoTroublePairs()
    ensures NoPair(Ready, 'r', 'r') && NoPair(Ready, 'f', 'a') && NoPair(Ready, 's', 's')
  {
  }

  lemma RequestingHasNoTroublePairs()
    ensures NoPair(Requesting, 'r', 'r') && NoPair(Requesting, 'f', 'a') && NoPair(Requesting, 's', 's')
  {
    assert Requesting == "Solicitando " + "câmera...";
    NoPairJoin("Solicitando ", "câmera...", 'r', 'r');
    NoPairJoin("Solicitando ", "câmera...", 'f', 'a');
    NoPairJoin("Solicitando ", "câmera...", 's', 's');
  }

  lemma ScanningHasNoTroublePairs()
    ensures NoPair(Scanning, 'r', 'r') && NoPair(Scanning, 'f', 'a') && NoPair(Scanning, 's', 's')
  {
  }

  lemma CodeReadHasNoTroublePairs()
    ensures NoPair(CodeRead, 'r', 'r') && NoPair(CodeRead, 'f', 'a') && NoPair(CodeRead, 's', 's')
  {
  }

  lemma RepeatedHasNoTroublePairs()
    ensures NoPair(Repeated, 'r', 'r') && NoPair(Repeated, 'f', 'a') && NoPair(Repeated, 's', 's')
  {
  }

  lemma ListClearedHasNoTroublePairs()
    ensures NoPair(ListCleared, 'r', 'r') && NoPair(ListCleared, 'f', 'a') && NoPair(ListCleared, 's', 's')
  {
  }

  /** The ordinary progress and outcome messages never show the retry button. */
  lemma {:induction false} NeutralMessagesOfferNoRetry(m: string)
    requires IsNeutralMessage(m)
    ensures !ShowsRetry(m)
  {
    if m == Ready {
      ReadyHasNoTroublePairs();
    } else if m == Requesting {
      RequestingHasNoTroublePairs();
    } else if m == Scanning {
      ScanningHasNoTroublePairs();
    } else if m == CodeRead {
      CodeReadHasNoTroublePairs();
    } else if m == Repeated {
      RepeatedHasNoTroublePairs();
    } else {
      ListClearedHasNoTroublePairs();
    }
    NoTroublePairs(m);
  }

  lemma InsecureOpeningHasNoTroublePairs()
    ensures NoPair("A câmera ", 'r', 'r')
    ensures NoPair("A câmera ", 'f', 'a')
    ensures NoPair("A câmera ", 's', 's')
  {
  }

  lemma InsecureSecondPieceHasNoTroublePairs()
    ensures NoPair("só funciona em ", 'r', 'r')
    ensures NoPair("só funciona em ", 'f', 'a')
    ensures NoPair("só funciona em ", 's', 's')
  {
  }

  lemma InsecureThirdPieceHasNoTroublePairs()
    ensures NoPair("contexto seguro ", 'r', 'r')
    ensures NoPair("contexto seguro ", 'f', 'a')
    ensures NoPair("contexto seguro ", 's', 's')
  {
  }

  lemma InsecureFourthPieceHasNoTroublePairs()
    ensures NoPair("(https) ou ", 'r', 'r')
    ensures NoPair("(https) ou ", 'f', 'a')
    ensures NoPair("(https) ou ", 's', 's')
  {
  }

  lemma InsecureFifthPieceHasNoTroublePairs()
    ensures NoPair("em localhost. ", 'r', 'r')
    ensures NoPair("em localhost. ", 'f', 'a')
    ensures NoPair("em localhost. ", 's', 's')
  {
  }

  lemma InsecureSixthPieceHasNoTroublePairs()
    ensures NoPair("Abra o app ", 'r', 'r')
    ensures NoPair("Abra o app ", 'f', 'a')
    ensures NoPair("Abra o app ", 's', 's')
  {
  }

  lemma InsecureSeventhPieceHasNoTroublePairs()
    ensures NoPair("em https ou em ", 'r', 'r')
    ensures NoPair("em https ou em ", 'f', 'a')
    ensures NoPair("em https ou em ", 's', 's')
  {
  }

  lemma InsecureClosingHasNoTroublePairs()
    ensures NoPair("http://localhost.", 'r', 'r')
    ensures NoPair("http://localhost.", 'f', 'a')
    ensures NoPair("http://localhost.", 's', 's')
  {
  }

  /** The pair conditions hold for the whole refusal because they hold for each
      piece and every piece but the last ends in a space. */
  lemma InsecureContextHasNoTroublePairs(x: char, y: char)
    requires (x, y) == ('r', 'r') || (x, y) == ('f', 'a') || (x, y) == ('s', 's')
    ensures IsAsciiLower(x) && IsAsciiLower(y) && NoPair(InsecureContext, x, y)
  {
    var p1, p2, p3, p4, p5, p6, p7, p8 :=
      "A câmera ",
      "só funciona em ",
      "contexto seguro ",
      "(https) ou ",
      "em localhost. ",
      "Abra o app ",
      "em https ou em ",
      "http://localhost.";
    InsecureOpeningHasNoTroublePairs();
    InsecureSecondPieceHasNoTroublePairs();
    InsecureThirdPieceHasNoTroublePairs();
    InsecureFourthPieceHasNoTroublePairs();
    InsecureFifthPieceHasNoTroublePairs();
    InsecureSixthPieceHasNoTroublePairs();
    InsecureSeventhPieceHasNoTroublePairs();
    InsecureClosingHasNoTroublePairs();
    NoPairJoin(p1, p2, x, y);
    NoPairJoin(p1 + p2, p3, x, y);
    NoPairJoin(p1 + p2 + p3, p4, x, y);
    NoPairJoin(p1 + p2 + p3 + p4, p5, x, y);
    NoPairJoin(p1 + p2 + p3 + p4 + p5, p6, x, y);
    NoPairJoin(p1 + p2 + p3 + p4 + p5 + p6, p7, x, y);
    NoPairJoin(p1 + p2 + p3 + p4 + p5 + p6 + p7, p8, x, y);
  }

  /** The secure-context refusal contains no trouble word, so it offers no retry. */
  lemma {:induction false} InsecureContextOffersNoRetry()
    ensures !ShowsRetry(InsecureContext)
  {
    InsecureContextHasNoTroublePairs('r', 'r');
    InsecureContextHasNoTroublePairs('f', 'a');
    InsecureContextHasNoTroublePairs('s', 's');
    NoTroublePairs(InsecureContext);
  }

  /** A message that begins with a trouble word, in any capitalisation, offers
      the retry button whatever follows it. */
  lemma {:induction false} TroubleWordFirst(head: string, word: string, rest: string)
    requires word == "erro" || word == "falha" || word == "permiss"
    requires Lower(head) == word
    ensures ShowsRetry(head + rest)
  {
    assert "" + head + rest == head + rest;
    TroubleWordInside("", head, word, rest);
  }

  /** The camera-failure message offers the retry button whatever the reason says. */
  lemma {:induction false} CameraErrorOffersRetry(reason: string)
    ensures ShowsRetry(CameraError(reason))
  {
    assert CameraError(reason) == "Erro" + (" ao acessar câmera: " + reason);
    TroubleWordFirst("Erro", "erro", " ao acessar câmera: " + reason);
  }

  /** The scanner-failure message offers the retry button whatever the reason says. */
  lemma {:induction false} ScannerFailureOffersRetry(reason: string)
    ensures ShowsRetry(ScannerFailure(reason))
  {
    assert ScannerFailure(reason) == "Falha" + (" ao iniciar scanner: " + reason);
    TroubleWordFirst("Falha", "falha", " ao iniciar scanner: " + reason);
  }

  /** The permission-denied message offers the retry button whatever the reason says. */
  lemma {:induction false} PermissionDeniedOffersRetry(reason: string)
    ensures ShowsRetry(PermissionDenied(reason))
  {
    assert PermissionDenied(reason) == "Permiss" + ("ão não concedida: " + reason);
    TroubleWordFirst("Permiss", "permiss", "ão não concedida: " + reason);
  }

  /** The substring test cannot tell success from failure: the permission-granted
      message still offers the retry button. */
  lemma {:induction false} PermissionGrantedOffersRetry()
    ensures ShowsRetry(PermissionGranted)
  {
    assert "Permissão concedida. " == "Permiss" + "ão concedida. ";
    assert PermissionGranted == "Permiss" + ("ão concedida. " + "Clique em Ligar câmera.");
    TroubleWordFirst("Permiss", "permiss", "ão concedida. " + "Clique em Ligar câmera.");
  }

  /** A message with a trouble word (in any capitalisation) anywhere in it offers
      the retry button, whatever precedes or follows the word. */
  lemma {:induction false} TroubleWordInside(lead: string, head: string, word: string, rest: string)
    requires word == "erro" || word == "falha" || word == "permiss"
    requires Lower(head) == word
    ensures ShowsRetry(lead + head + rest)
  {
    LowerAppend(lead, head);
    LowerAppend(lead + head, rest);
    var lowered := Lower(lead + head + rest);
    assert lowered == Lower(lead) + word + Lower(rest);
    assert lowered[|lead|..|lead| + |word|] == word;
    assert OccursAt(lowered, word, |lead|);
    ContainsIff(lowered, word);
  }

  /** The substring test shows the retry button while permissions are being
      retried too, since "Tentando permissões..." contains "permiss". */
  lemma {:induction false} RetryingPermissionsOffersRetry()
    ensures ShowsRetry(RetryingPermissions)
  {
    assert RetryingPermissions == "Tentando " + "permiss" + "ões...";
    TroubleWordInside("Tentando ", "permiss", "permiss", "ões...");
  }

  /** Upper-case and capitalised forms of the same text are classified alike. */
  lemma {:induction false} CapitalisationDoesNotMatter(a: string, b: string)
    requires Lower(a) == Lower(b)
    ensures ShowsRetry(a) == ShowsRetry(b)
  {
  }
}

=== FILE: text.dfy ===
/** The two string operations the status classifier is built from:
    JavaScript's `toLowerCase` and `includes`, on strings as sequences of characters. */
module Text {

  /** Lower-cases one character: the ASCII capitals A-Z and the Latin-1 capitals
      À-Þ (except the multiplication sign ×) map to their small forms, every
      other character is left as it is. */
  function LowerChar(c: char): char
  {
    if 'A' <= c <= 'Z' then (c as int + 32) as char
    else if 'À' <= c <= 'Þ' && c != '×' then (c as int + 32) as char
    else c
  }

  /** `toLowerCase`: lower-cases every character and keeps the length. */
  function Lower(s: string): (r: string)
    ensures |r| == |s|
    ensures forall i :: 0 <= i < |s| ==> r[i] == LowerChar(s[i])
  {
    if s == [] then [] else [LowerChar(s[0])] + Lower(s[1..])
  }

  /** `t` occurs in `s` starting at index `i`. */
  ghost predicate OccursAt(s: string, t: string, i: int)
  {
    0 <= i && i + |t| <= |s| && s[i..i + |t|] == t
  }

  /** `s.includes(t)`: a left-to-right search for `t` in `s`. */
  predicate Contains(s: string, t: string)
    decreases |s|
  {
    |t| <= |s| && (s[..|t|] == t || Contains(s[1..], t))
  }

  /** The search finds `t` exactly when `t` occurs somewhere in `s`. */
  lemma {:induction false} ContainsIff(s: string, t: string)
    ensures Contains(s, t) <==> exists i :: OccursAt(s, t, i)
    decreases |s|
  {
    if |t| <= |s| {
      if s[..|t|] == t {
        assert OccursAt(s, t, 0);
      } else {
        ContainsIff(s[1..], t);
        if Contains(s[1..], t) {
          var i :| OccursAt(s[1..], t, i);
          assert s[1..][i..i + |t|] == s[i + 1..i + 1 + |t|];
          assert OccursAt(s, t, i + 1);
        } else {
          forall i | 1 <= i && OccursAt(s, t, i)
            ensures OccursAt(s[1..], t, i - 1)
          {
            assert s[1..][i - 1..i - 1 + |t|] == s[i..i + |t|];
          }
        }
      }
    }
  }

  /** Lower-casing distributes over concatenation. */
  lemma LowerAppend(a: string, b: string)
    ensures Lower(a + b) == Lower(a) + Lower(b)
  {
    assert forall i :: 0 <= i < |a + b| ==> Lower(a + b)[i] == (Lower(a) + Lower(b))[i];
  }

  /** Lower-casing twice changes nothing more. */
  lemma LowerIdempotent(s: string)
    ensures Lower(Lower(s)) == Lower(s)
  {
    assert forall i :: 0 <= i < |s| ==> LowerChar(LowerChar(s[i])) == LowerChar(s[i]);
  }

  predicate IsAsciiLower(c: char)
  {
    'a' <= c <= 'z'
  }

  function AsciiUpper(c: char): (u: char)
    requires IsAsciiLower(c)
    ensures 'A' <= u <= 'Z' && LowerChar(u) == c
  {
    (c as int - 32) as char
  }

  /** The only characters that lower-case to an ASCII small letter are that
      letter and its capital. */
  lemma LowerCharToAscii(c: char, x: char)
    requires IsAsciiLower(x)
    ensures LowerChar(c) == x <==> c == x || c == AsciiUpper(x)
  {
  }

  /** No character of `s` followed by the next one spells `x` then `y`, in
      either case. */
  predicate NoPair(s: string, x: char, y: char)
    requires IsAsciiLower(x) && IsAsciiLower(y)
  {
    forall i | 0 <= i < |s| - 1 ::
      !((s[i] == x || s[i] == AsciiUpper(x)) && (s[i + 1] == y || s[i + 1] == AsciiUpper(y)))
  }

  /** The pair test is local: two strings free of the pair stay free of it when
      joined after a space. */
  lemma NoPairJoin(a: string, b: string, x: char, y: char)
    requires IsAsciiLower(x) && IsAsciiLower(y)
    requires |a| > 0 && a[|a| - 1] == ' '
    requires NoPair(a, x, y) && NoPair(b, x, y)
    ensures NoPair(a + b, x, y)
  {
    var s := a + b;
    forall i | 0 <= i < |s| - 1
      ensures !((s[i] == x || s[i] == AsciiUpper(x)) && (s[i + 1] == y || s[i + 1] == AsciiUpper(y)))
    {
      if i + 1 < |a| {
        assert s[i] == a[i] && s[i + 1] == a[i + 1];
      } else if i + 1 == |a| {
        assert s[i] == ' ';
      } else {
        assert s[i] == b[i - |a|] && s[i + 1] == b[i - |a| + 1];
      }
    }
  }

  /** If `t` holds the ASCII pair `x y` at some position and `s` never has that
      pair (in any case), then the lower-cased `s` does not contain `t`. */
  lemma {:induction false} NoPairNotContained(s: string, t: string, k: nat)
    requires k + 1 < |t| && IsAsciiLower(t[k]) && IsAsciiLower(t[k + 1])
    requires NoPair(s, t[k], t[k + 1])
    ensures !Contains(Lower(s), t)
  {
    ContainsIff(Lower(s), t);
    if i :| OccursAt(Lower(s), t, i) {
      assert Lower(s)[i + k] == Lower(s)[i..i + |t|][k] == t[k];
      assert Lower(s)[i + k + 1] == Lower(s)[i..i + |t|][k + 1] == t[k + 1];
      LowerCharToAscii(s[i + k], t[k]);
      LowerCharToAscii(s[i + k + 1], t[k + 1]);
      assert false;
    }
  }
}

=== FILE: torch.dfy ===
/** Torch control: `tryEnableTorch` and its capability-gated fallback. */
module Torch {
  import opened Options
  import opened Camera
  import opened Variants

  /** The outcomes of the two calls that can switch the torch: the decoder's
      `setFlash` and the track's `applyConstraints`. */
  datatype TorchEnv = TorchEnv(setFlashSucceeds: bool, applySucceeds: bool)

  /** Why `tryEnableTorch` threw. */
  datatype TorchError = NoActiveStream | NoVideoTrack | TorchUnsupported | CallRejected

  datatype TorchResult = TorchApplied | TorchFailed(error: TorchError)

  /** The decoder offers `setFlash`, which is then used instead of the track. */
  predicate UsesSetFlash(scanner: Option<Scanner>)
  {
    scanner.Some? && scanner.value.hasSetFlash
  }

  /** The capability test of the fallback: key presence in `Tsx`, a truthy value
      in `Jsx`. */
  predicate Advertised(variant: Variant, cap: TorchCapability)
  {
    match variant
    case Tsx => cap.TorchKey?
    case Jsx => cap.TorchKey? && cap.truthy
  }

  /** `tryEnableTorch`: the decoder's `setFlash` when there is one, otherwise the
      stream's first video track, provided it advertises the torch. */
  function TryEnableTorch(variant: Variant, scanner: Option<Scanner>, stream: Option<Stream>, env: TorchEnv)
    : (r: TorchResult)
    ensures UsesSetFlash(scanner) ==> (r.TorchApplied? <==> env.setFlashSucceeds)
    ensures UsesSetFlash(scanner) && !env.setFlashSucceeds ==> r == TorchFailed(CallRejected)
    ensures !UsesSetFlash(scanner) && stream.None? ==> r == TorchFailed(NoActiveStream)
    ensures !UsesSetFlash(scanner) && stream.Some? && !stream.value.hasVideoTrack ==> r == TorchFailed(NoVideoTrack)
    ensures !UsesSetFlash(scanner) && stream.Some? && stream.value.hasVideoTrack
      ==> (r == TorchFailed(TorchUnsupported) <==> !Advertised(variant, stream.value.torch))
    ensures !UsesSetFlash(scanner) && stream.Some? && stream.value.hasVideoTrack
            && Advertised(variant, stream.value.torch)
      ==> (r.TorchApplied? <==> env.applySucceeds)
    ensures !UsesSetFlash(scanner) && r.TorchApplied? ==> stream.Some? && env.applySucceeds
  {
    if UsesSetFlash(scanner) then
      if env.setFlashSucceeds then TorchApplied else TorchFailed(CallRejected)
    else if stream.None? then TorchFailed(NoActiveStream)
    else if !stream.value.hasVideoTrack then TorchFailed(NoVideoTrack)
    else if !Advertised(variant, stream.value.torch) then TorchFailed(TorchUnsupported)
    else if env.applySucceeds then TorchApplied
    else TorchFailed(CallRejected)
  }

  /** Every torch request the `Jsx` test lets through, the `Tsx` test lets through
      too; they part only on a track that advertises `torch: false`. */
  lemma JsxTorchImpliesTsx(scanner: Option<Scanner>, stream: Option<Stream>, env: TorchEnv)
    ensures TryEnableTorch(Jsx, scanner, stream, env).TorchApplied?
      ==> TryEnableTorch(Tsx, scanner, stream, env).TorchApplied?
    ensures TryEnableTorch(Jsx, scanner, stream, env) != TryEnableTorch(Tsx, scanner, stream, env)
      ==> !UsesSetFlash(scanner) && stream == Some(Stream(true, TorchKey(false)))
  {
  }

  /** A track that advertises `torch: false` is used by `Tsx` and refused by `Jsx`. */
  lemma FalseTorchSplitsVariants(env: TorchEnv)
    requires env.applySucceeds
    ensures TryEnableTorch(Tsx, None, Some(Stream(true, TorchKey(false))), env) == TorchApplied
    ensures TryEnableTorch(Jsx, None, Some(Stream(true, TorchKey(false))), env) == TorchFailed(TorchUnsupported)
  {
  }
}

=== FILE: variants.dfy ===
/** The two versions of the App component the model covers. They share every
    handler and differ in three places:
    - stopping the camera also switches the flash flag off only in `Tsx`;
    - the torch fallback accepts a track whose capabilities merely have a
      `torch` key in `Tsx`, but needs a truthy `torch` value in `Jsx`;
    - a resume timer that fires after the scanner was released still sets the
      "scanning" status in `Tsx` (optional call), and does nothing in `Jsx`
      (the call on the missing scanner throws and is caught). */
module Variants {

  datatype Variant = Tsx | Jsx
}

=== FILE: widget.dfy ===
/** The App component as a state machine: one immutable state, one pure
    transition per user action, decode callback or timer, and runs of events.
    Both versions of the component are covered; `State.variant` says which. */
module Widget {
  import opened Options
  import opened Status
  import opened Ledger
  import opened Camera
  import opened Torch
  import opened Variants

  /** The audible cue an event plays. */
  datatype Cue = Silent | AcceptedCue | DeniedCue

  /** What an event does besides changing the state: the cue it plays, the
      camera requests it makes, and the alert it raises. */
  datatype Feedback = Feedback(cue: Cue, requests: seq<Constraint>, alert: Option<string>)

  const Quiet: Feedback := Feedback(Silent, [], None)

  const ScannerNotStarted: string := "Scanner não iniciado"
  const FlashUnsupported: string := "Flash não suportado neste dispositivo"

  /** The component's state: the ledger and what is stored under the key, the
      `running`, `flashOn` and `status` state, the scanner and stream references,
      and how many resume and auto-torch timers are still pending. */
  datatype State = State(
    variant: Variant,
    codes: seq<string>,
    stored: Stored,
    running: bool,
    flashOn: bool,
    status: string,
    scanner: Option<Scanner>,
    stream: Option<Stream>,
    pendingResumes: nat,
    pendingTorch: nat)

  datatype Transition = Transition(next: State, out: Feedback)

  /** The outcome of the decoder's `start()`. */
  datatype Attempt = Succeeded | Failed(reason: string)

  /** Everything a start depends on outside the component: the page location,
      the answers to the two camera requests, whether the new decoder offers
      `setFlash`, and whether its `start()` succeeds. */
  datatype StartEnv = StartEnv(
    location: Location,
    environment: Grant,
    fallback: Grant,
    scannerHasSetFlash: bool,
    scannerStart: Attempt)

  datatype Event =
    | ToggleCamera(env: StartEnv)
    | Decoded(code: string)
    | ResumeTimer
    | TorchTimer(torch: TorchEnv)
    | ToggleFlash(torch: TorchEnv)
    | ResetAll(confirmed: bool)
    | RetryPermissions(probe: Grant)

  /** The facts every reachable state keeps: a duplicate-free ledger that is
      exactly what is stored, scanner and stream held or released together,
      a running camera always holding them, and (in `Tsx`) the flash flag only
      on while a scanner is held. */
  ghost predicate Inv(s: State)
  {
    && NoDup(s.codes)
    && s.stored == Persist(s.codes)
    && (s.scanner.Some? <==> s.stream.Some?)
    && (s.running ==> s.scanner.Some?)
    && (s.variant == Tsx && s.flashOn ==> s.scanner.Some?)
  }

  /** The component as first rendered: the ledger loaded from storage and at once
      written back, the camera off, status "Pronto". */
  function Init(variant: Variant, stored: Stored): (s: State)
  {
    var codes := Load(stored);
    State(variant, codes, Persist(codes), false, false, Ready, None, None, 0, 0)
  }

  /** A first render from any stored value whose list has no duplicates is a
      state the invariant holds of; the value stored afterwards is the loaded
      ledger. */
  lemma InitSatisfiesInv(variant: Variant, stored: Stored)
    requires NoDup(Load(stored))
    ensures Inv(Init(variant, stored))
    ensures Init(variant, stored).codes == [] <==> !stored.List? || stored.codes == []
  {
  }

  /** `start`: the running guard, then the secure-context check, then camera
      acquisition, then a fresh decoder in place of any previous one. */
  function Start(s: State, env: StartEnv): (t: Transition)
    ensures s.running ==> t == Transition(s, Quiet)
    ensures !s.running && !IsSecure(env.location)
      ==> t == Transition(s.(status := InsecureContext), Quiet)
    ensures !s.running && IsSecure(env.location)
      ==> t.out.requests == Acquire(env.environment, env.fallback).requests
    ensures t.out.cue == Silent && t.out.alert == None
    ensures t.next.running <==>
      s.running
      || (IsSecure(env.location)
          && (env.environment.Granted? || env.fallback.Granted?)
          && env.scannerStart.Succeeded?)
    ensures !s.running && IsSecure(env.location) && env.environment.Refused? && env.fallback.Refused?
      ==> t.next == s.(status := CameraError(env.fallback.reason))
    ensures !s.running && IsSecure(env.location) && (env.environment.Granted? || env.fallback.Granted?)
      ==> && t.next.stream == Some(Acquire(env.environment, env.fallback).result.stream)
          && t.next.scanner == Some(Scanner(env.scannerHasSetFlash, env.scannerStart.Succeeded?))
          && (env.scannerStart.Succeeded? ==> t.next.status == Scanning && t.next.pendingTorch == s.pendingTorch + 1)
          && (env.scannerStart.Failed? ==> t.next.status == ScannerFailure(env.scannerStart.reason)
                                           && t.next.pendingTorch == s.pendingTorch)
    ensures t.next.variant == s.variant && t.next.codes == s.codes && t.next.stored == s.stored
    ensures t.next.flashOn == s.flashOn && t.next.pendingResumes == s.pendingResumes
  {
    if s.running then Transition(s, Quiet)
    else if !IsSecure(env.location) then Transition(s.(status := InsecureContext), Quiet)
    else
      var acquired := Acquire(env.environment, env.fallback);
      var out := Feedback(Silent, acquired.requests, None);
      match acquired.result
      case Refused(reason) => Transition(s.(status := CameraError(reason)), out)
      case Granted(stream) =>
        var withStream := s.(stream := Some(stream));
        match env.scannerStart
        case Succeeded =>
          Transition(
            withStream.(scanner := Some(Scanner(env.scannerHasSetFlash, true)), running := true,
                        status := Scanning, pendingTorch := s.pendingTorch + 1),
            out)
        case Failed(reason) =>
          Transition(
            withStream.(scanner := Some(Scanner(env.scannerHasSetFlash, false)),
                        status := ScannerFailure(reason)),
            out)
  }

  /** `stop`: releases scanner and stream, turns the camera off and sets
      "Pronto"; `Tsx` also switches the flash flag off, `Jsx` leaves it. */
  function Stop(s: State): (t: Transition)
    ensures t.out == Quiet
    ensures t.next.scanner.None? && t.next.stream.None?
    ensures !t.next.running && t.next.status == Ready
    ensures s.variant == Tsx ==> !t.next.flashOn
    ensures s.variant == Jsx ==> t.next.flashOn == s.flashOn
    ensures t.next.codes == s.codes && t.next.stored == s.stored && t.next.variant == s.variant
    ensures t.next.pendingResumes == s.pendingResumes && t.next.pendingTorch == s.pendingTorch
  {
    var released := s.(scanner := None, stream := None, running := false, status := Ready);
    match s.variant
    case Tsx => Transition(released.(flashOn := false), Quiet)
    case Jsx => Transition(released, Quiet)
  }

  /** Stopping twice is stopping once. */
  lemma StopIdempotent(s: State)
    ensures Stop(Stop(s).next) == Stop(s)
  {
  }

  /** `toggleScanner` / `toggle`: stop a running camera, otherwise start one. */
  function Toggle(s: State, env: StartEnv): (t: Transition)
    ensures s.running ==> t == Stop(s)
    ensures !s.running ==> t == Start(s, env)
  {
    if s.running then Stop(s) else Start(s, env)
  }

  /** The decoder's result callback: a repeated code plays the denied cue and
      says "Código repetido" and nothing else; a new code plays the accepted
      cue, goes in front of the ledger (and into storage), says "QR lido",
      pauses the decoder and schedules its resume. */
  function Decode(s: State, code: string): (t: Transition)
    ensures t.out.cue == AcceptedCue <==> code !in s.codes
    ensures t.out.cue == DeniedCue <==> code in s.codes
    ensures t.out.requests == [] && t.out.alert == None
    ensures code in s.codes ==> t.next == s.(status := Repeated)
    ensures code !in s.codes ==>
      && t.next.codes == [code] + s.codes
      && t.next.stored == Persist(t.next.codes)
      && t.next.status == CodeRead
      && t.next.pendingResumes == s.pendingResumes + 1
      && (s.scanner.Some? ==> t.next.scanner == Some(s.scanner.value.(scanning := false)))
      && (s.scanner.None? ==> t.next.scanner.None?)
      && t.next == s.(codes := t.next.codes, stored := t.next.stored, status := CodeRead,
                      scanner := t.next.scanner, pendingResumes := t.next.pendingResumes)
  {
    var recorded := Record(s.codes, code);
    match recorded.verdict
    case Rejected => Transition(s.(status := Repeated), Feedback(DeniedCue, [], None))
    case Accepted =>
      var paused := match s.scanner
        case Some(scanner) => Some(scanner.(scanning := false))
        case None => None;
      Transition(
        s.(codes := recorded.codes, stored := Persist(recorded.codes), status := CodeRead,
           scanner := paused, pendingResumes := s.pendingResumes + 1),
        Feedback(AcceptedCue, [], None))
  }

  /** The resume timer firing: the held scanner resumes and the status says
      "Escaneando..."; with no scanner held, `Tsx` still sets that status while
      `Jsx` changes nothing. */
  function Resume(s: State): (t: Transition)
    ensures t.out == Quiet
    ensures s.pendingResumes == 0 ==> t.next == s
    ensures s.pendingResumes > 0 ==> t.next.pendingResumes == s.pendingResumes - 1
    ensures s.pendingResumes > 0 && s.scanner.Some? ==>
      t.next.scanner == Some(s.scanner.value.(scanning := true)) && t.next.status == Scanning
    ensures s.pendingResumes > 0 && s.scanner.None? ==>
      t.next.scanner.None? && (t.next.status == Scanning <==> s.variant == Tsx || s.status == Scanning)
    ensures s.pendingResumes > 0 && s.scanner.None? ==>
      t.next == (if s.variant == Tsx then s.(pendingResumes := s.pendingResumes - 1, status := Scanning)
                 else s.(pendingResumes := s.pendingResumes - 1))
    ensures t.next.codes == s.codes && t.next.stored == s.stored && t.next.running == s.running
    ensures t.next.flashOn == s.flashOn && t.next.stream == s.stream && t.next.variant == s.variant
    ensures t.next.pendingTorch == s.pendingTorch
  {
    if s.pendingResumes == 0 then Transition(s, Quiet)
    else
      var fired := s.(pendingResumes := s.pendingResumes - 1);
      match s.scanner
      case Some(scanner) =>
        Transition(fired.(scanner := Some(scanner.(scanning := true)), status := Scanning), Quiet)
      case None =>
        if s.variant == Tsx then Transition(fired.(status := Scanning), Quiet)
        else Transition(fired, Quiet)
  }

  /** The auto-torch timer firing: the flash flag is set when the torch could be
      switched on, and nothing changes when it could not. */
  function AutoTorch(s: State, env: TorchEnv): (t: Transition)
    ensures t.out == Quiet
    ensures s.pendingTorch == 0 ==> t.next == s
    ensures s.pendingTorch > 0 ==>
      t.next.pendingTorch == s.pendingTorch - 1
      && (t.next.flashOn <==> s.flashOn || TryEnableTorch(s.variant, s.scanner, s.stream, env).TorchApplied?)
    ensures s.scanner.None? && s.stream.None? ==> t.next.flashOn == s.flashOn
    ensures t.next == s.(pendingTorch := t.next.pendingTorch, flashOn := t.next.flashOn)
  {
    if s.pendingTorch == 0 then Transition(s, Quiet)
    else
      var fired := s.(pendingTorch := s.pendingTorch - 1);
      if TryEnableTorch(s.variant, s.scanner, s.stream, env).TorchApplied? then
        Transition(fired.(flashOn := true), Quiet)
      else Transition(fired, Quiet)
  }

  /** `toggleFlash`: without a scanner it only alerts; otherwise it asks for the
      opposite torch state and flips the flag only if that succeeded, alerting
      otherwise. */
  function FlipFlash(s: State, env: TorchEnv): (t: Transition)
    ensures t.out.cue == Silent && t.out.requests == []
    ensures s.scanner.None? ==> t == Transition(s, Feedback(Silent, [], Some(ScannerNotStarted)))
    ensures t.next.flashOn != s.flashOn <==>
      s.scanner.Some? && TryEnableTorch(s.variant, s.scanner, s.stream, env).TorchApplied?
    ensures t.out.alert.None? <==> t.next.flashOn != s.flashOn
    ensures s.scanner.Some? && !TryEnableTorch(s.variant, s.scanner, s.stream, env).TorchApplied?
      ==> t.out.alert == Some(FlashUnsupported)
    ensures t.next == s.(flashOn := t.next.flashOn)
  {
    if s.scanner.None? then Transition(s, Feedback(Silent, [], Some(ScannerNotStarted)))
    else if TryEnableTorch(s.variant, s.scanner, s.stream, env).TorchApplied? then
      Transition(s.(flashOn := !s.flashOn), Quiet)
    else Transition(s, Feedback(Silent, [], Some(FlashUnsupported)))
  }

  /** `resetAll`: declined, nothing changes; confirmed, the ledger (and what is
      stored) becomes empty and the status says "Lista limpa". */
  function Reset(s: State, confirmed: bool): (t: Transition)
    ensures t.out == Quiet
    ensures !confirmed ==> t.next == s
    ensures confirmed ==> t.next.codes == [] && Load(t.next.stored) == [] && t.next.status == ListCleared
    ensures confirmed ==> t.next.stored == List([])
    ensures confirmed ==> t.next == s.(codes := [], stored := t.next.stored, status := ListCleared)
  {
    if !confirmed then Transition(s, Quiet)
    else Transition(s.(codes := [], stored := Persist([]), status := ListCleared), Quiet)
  }

  /** `retryPermissions`: one unconstrained camera request, released at once;
      the status reports whether it was granted. */
  function Retry(s: State, probe: Grant): (t: Transition)
    ensures t.out == Feedback(Silent, [AnyVideo], None)
    ensures probe.Granted? ==> t.next == s.(status := PermissionGranted)
    ensures probe.Refused? ==> t.next == s.(status := PermissionDenied(probe.reason))
  {
    match probe
    case Granted(_) => Transition(s.(status := PermissionGranted), Feedback(Silent, [AnyVideo], None))
    case Refused(reason) => Transition(s.(status := PermissionDenied(reason)), Feedback(Silent, [AnyVideo], None))
  }

  /** One event. */
  function Step(s: State, e: Event): Transition
  {
    match e
    case ToggleCamera(env) => Toggle(s, env)
    case Decoded(code) => Decode(s, code)
    case ResumeTimer => Resume(s)
    case TorchTimer(torch) => AutoTorch(s, torch)
    case ToggleFlash(torch) => FlipFlash(s, torch)
    case ResetAll(confirmed) => Reset(s, confirmed)
    case RetryPermissions(probe) => Retry(s, probe)
  }

  /** A run of events, the last one handled last. */
  function Run(s: State, events: seq<Event>): State
    decreases |events|
  {
    if events == [] then s else Step(Run(s, events[..|events| - 1]), events[|events| - 1]).next
  }

  /** Every event keeps the invariant, and none changes the variant. */
  lemma StepKeepsInv(s: State, e: Event)
    requires Inv(s)
    ensures Inv(Step(s, e).next)
    ensures Step(s, e).next.variant == s.variant
  {
  }

  /** Any run of events keeps the invariant: the ledger never holds a code twice
      and what is stored is always the ledger. */
  lemma {:induction false} RunKeepsInv(s: State, events: seq<Event>)
    requires Inv(s)
    ensures Inv(Run(s, events))
    ensures Run(s, events).variant == s.variant
    decreases |events|
  {
    if events != [] {
      RunKeepsInv(s, events[..|events| - 1]);
      StepKeepsInv(Run(s, events[..|events| - 1]), events[|events| - 1]);
    }
  }

  /** From a first render onwards, whatever happens, the ledger has no duplicate
      and mirrors storage. */
  lemma {:induction false} NoDuplicatesEver(variant: Variant, stored: Stored, events: seq<Event>)
    requires NoDup(Load(stored))
    ensures NoDup(Run(Init(variant, stored), events).codes)
    ensures Run(Init(variant, stored), events).stored == Persist(Run(Init(variant, stored), events).codes)
  {
    InitSatisfiesInv(variant, stored);
    RunKeepsInv(Init(variant, stored), events);
  }

  /** Every code in the ledger after a run was there before or was decoded during
      the run. */
  lemma {:induction false} RunCodesComeFromDecodes(s: State, events: seq<Event>)
    ensures forall c :: c in Run(s, events).codes ==> c in s.codes || Decoded(c) in events
    decreases |events|
  {
    if events != [] {
      var prefix := events[..|events| - 1];
      RunCodesComeFromDecodes(s, prefix);
      assert forall e :: e in prefix ==> e in events;
    }
  }

  /** The codes a run of decode events carries, in order. */
  function DecodedCodes(events: seq<Event>): (codes: seq<string>)
    requires forall k | 0 <= k < |events| :: events[k].Decoded?
    ensures |codes| == |events|
    ensures forall k | 0 <= k < |events| :: codes[k] == events[k].code
    decreases |events|
  {
    if events == [] then [] else DecodedCodes(events[..|events| - 1]) + [events[|events| - 1].code]
  }

  /** A run of decode events leaves the ledger exactly as the check-and-insert
      of its codes, one after the other, would: so it is newest first and free
      of duplicates by the ledger's own lemmas. */
  lemma {:induction false} DecodeRunMatchesLedger(s: State, events: seq<Event>)
    requires forall k | 0 <= k < |events| :: events[k].Decoded?
    ensures Run(s, events).codes == DecodeAll(s.codes, DecodedCodes(events))
    decreases |events|
  {
    if events != [] {
      var prefix := events[..|events| - 1];
      DecodeRunMatchesLedger(s, prefix);
      assert DecodedCodes(events)[..|events| - 1] == DecodedCodes(prefix);
    }
  }

  /** The same code decoded twice in a row: accepted (if new) and then rejected,
      never accepted twice; the second decode leaves the ledger alone. */
  lemma SameCodeTwiceInState(s: State, code: string)
    ensures var first := Decode(s, code);
      && (first.out.cue == AcceptedCue <==> code !in s.codes)
      && Decode(first.next, code).out.cue == DeniedCue
      && Decode(first.next, code).next.codes == first.next.codes
  {
  }

  /** A start that does not run the camera because a camera or scanner failure
      stopped it leaves a status that offers the retry button; a start refused
      for an insecure page makes no camera request and offers no retry. */
  lemma {:induction false} StartFailuresAndRetry(s: State, env: StartEnv)
    requires !s.running
    ensures !IsSecure(env.location) ==>
      Start(s, env).out.requests == [] && Start(s, env).next.status == InsecureContext
      && !ShowsRetry(Start(s, env).next.status)
    ensures IsSecure(env.location) && !Start(s, env).next.running ==> ShowsRetry(Start(s, env).next.status)
  {
    if !IsSecure(env.location) {
      InsecureContextOffersNoRetry();
    } else if env.environment.Refused? && env.fallback.Refused? {
      CameraErrorOffersRetry(env.fallback.reason);
    } else if env.scannerStart.Failed? {
      ScannerFailureOffersRetry(env.scannerStart.reason);
    }
  }

  /** After `stop`, a late auto-torch timer cannot turn the flash on and no timer
      touches the ledger; a late resume timer still writes "Escaneando..." over
      "Pronto" in `Tsx` (with the camera off), while `Jsx` keeps "Pronto". */
  lemma LateTimersAfterStop(s: State, env: TorchEnv)
    requires s.pendingResumes > 0
    ensures var stopped := Stop(s).next;
      && AutoTorch(stopped, env).next.flashOn == stopped.flashOn
      && AutoTorch(stopped, env).next.codes == s.codes
      && Resume(stopped).next.codes == s.codes
      && !Resume(stopped).next.running
      && (s.variant == Tsx ==> Resume(stopped).next.status == Scanning)
      && (s.variant == Jsx ==> Resume(stopped).next.status == Ready)
  {
  }

  /** A confirmed reset empties what is stored, so the next first render loads an
      empty ledger; a declined one changes nothing. */
  lemma ResetThenReload(s: State)
    ensures Init(s.variant, Reset(s, true).next.stored).codes == []
    ensures Reset(s, false).next == s
  {
  }
}
